=== FILE: README.md ===
# smokeBrick game core in Dafny

A model of the simulation behind the browser Breakout variant in
`script.js`: the brick grid built from a 35 x 42 character layout, the
brick positions the drawing pass writes, the collision scan, the health
policy, the ball and paddle steps, the keyboard and pointer handlers, and
the per-frame order that ties them together.

The source keeps one mutable record and patches fields of it. Here that
record is the immutable `Game.State`, and every handler or frame phase is a
pure function from state to state. Positions are exact `real`s, so the
fractional paddle positions `(W - 95) / 2` and `relX - 47.5` are modelled
exactly. The canvas (width, height, left offset) and the layout are
parameters.

Modules, in dependency order:

- `Config`: the fixed sizes (ball radius 10, paddle 95 x 10, paddle step 7,
  50 below the paddle) and the `Canvas` parameter.
- `Health`: `Vitals` (health plus the flag raised when the delayed "you
  died" message is scheduled) and `UpdateHealth`.
- `Bricks`: the grid, `CreateBricks`, `PositionBricks`, the hit test and the
  closed-form effect of a collision pass (`ClearHits`, `GridHits`).
- `Game`: the state record, the `Outcome` of a frame (`Running` or
  `GameOver`), the start state and the invariant `Valid`.
- `Collision`: the scan in the source's row-major order (`ScanRow`,
  `ScanGrid`), proved equal to the closed form, and `CollisionDetection`.
- `Physics`: `MovePaddle`, `MoveBall`, `GameRestart`.
- `Input`: `KeyDown`, `KeyUp`, `PointerMove`.
- `Frame`: `DrawPhase` (positions, then collisions), `Step` (drawing phase,
  ball step, paddle step), `Ready`, and `Run`, a driver over a sequence of
  host events.

Main results:

- Health starts at 100 and stays even and within [0, 100]. It is zero
  exactly when the death path has fired, and that path fires only on the
  2 -> 0 transition.
- After the drawing pass has positioned the bricks, the ball point can lie
  inside at most one brick. Bricks are 8 wide and 8 high on a pitch of 13.
  So a frame breaks at most one brick, reflects the ball vertically at most
  once for bricks, and costs at most one health step.
- The scan, which negates `dy` and updates health once per hit in row-major
  order, equals a closed form. That closed form clears the hit cells,
  negates `dy` once per hit, and applies `UpdateHealth` once per hit.
- A frame ends the game exactly when the moved ball misses the paddle with
  no lives left; otherwise a life is lost exactly on a miss. Along any run
  of events, a game started with n lives ends on its (n+1)-th miss, as the
  source is written.
- Along any sequence of events the state stays valid. Lives, health and the
  number of remaining bricks never increase.

## Model

| member | source | states |
|---|---|---|
| `Bricks.CreateBricks` | script.js:31-45 | the grid has exactly 35 rows of 42 cells; every cell is at (0, 0) and is active exactly when its layout cell is the marker "■" |
| `Bricks.PositionBricks` | script.js:172-190 | every active cell (row, col) is moved to x = col·13 + 30, y = row·13 + 80; inactive cells keep their old position; no cell changes activity; the grid keeps its shape |
| `Bricks.PositionedIsFixed` | script.js:172-190 | a grid whose active cells already sit at their grid positions is left unchanged by the position pass |
| `Bricks.ClearHitsKeepsPositioned` | script.js:105-113 | a collision pass keeps every active cell at its grid position |
| `Bricks.RepositionAfterCollision` | script.js:172-190 | after one frame's positions and collisions, the next frame's position pass writes no new positions |
| `Bricks.ClearHits` | script.js:105-113 | the effect of a collision pass on the grid: a cell is switched off exactly when it was active and the ball point lies strictly inside its 8 x 8 square; positions and shape are unchanged |
| `Bricks.RowAtMostOneHit` | script.js:105-110 | in a row of positioned bricks the ball point lies inside at most one brick |
| `Bricks.GridAtMostOneHit` | script.js:100-118 | in a positioned grid the ball point lies inside at most one brick |
| `Bricks.ClearHitsCount` | script.js:105-113 | a collision pass removes exactly as many active bricks as it finds hits |
| `Health.UpdateHealth` | script.js:192-206 | health at least 2 drops by exactly 2; below 2 it is a no-op; the death flag is raised exactly on the 2 -> 0 transition; the invariant (even, in [0, 100], zero exactly when dying) is kept |
| `Health.HealthAfterClosedForm` | script.js:192-206 | n hits from a consistent health leave max(0, health - 2n), and the death path has fired exactly when 2n >= health |
| `Game.InitialState` | script.js:18-29 | the fresh state: ball at (W/2, paddle line) with velocity (2, -2), paddle centred under it, no key held, 3 lives, health 100, grid from the layout, and it satisfies the invariant |
| `Collision.ScanRowEffect` | script.js:103-116 | scanning a row cell by cell clears its hit cells, negates dy once per hit and applies one health update per hit |
| `Collision.ScanGridEffect` | script.js:100-118 | the same for the whole grid scanned row by row |
| `Collision.CollisionDetection` | script.js:100-118 | only cells hit by the ball point change, and only from active to inactive; dy is negated once per hit and health updated once per hit; position, dx, paddle, keys and lives are unchanged |
| `Physics.MovePaddle` | script.js:57-66 | the paddle moves by exactly +7, -7 or 0; +7 exactly when right is held and paddleX < W - 95; -7 exactly when that does not apply and left is held and paddleX > 0; nothing else changes |
| `Physics.MovePaddleKeepsRange` | script.js:57-66 | under the keyboard the paddle's left edge stays strictly between -7 and W - 88 |
| `Physics.CentredPaddleInRange` | script.js:23 | the centred start position lies in that range when the canvas is wider than 81 |
| `Physics.KeyboardOvershootsRight` | script.js:60-61 | one right step from just inside W - 95 ends past W - 95 |
| `Physics.GameRestart` | script.js:234-242 | one life fewer, ball at (W/2, paddle line), paddle centred; velocity, keys, bricks and health unchanged |
| `Physics.RestartMatchesStart` | script.js:234-242 | the reset puts ball and paddle where a new game starts them |
| `Physics.MoveBall` | script.js:68-98 | the ball moves by (dx, dy); dx is negated exactly when the moved x plus dx passes W - 10 or 10; dy is negated exactly on a ceiling bounce or a paddle bounce; the game ends exactly on a miss with no lives left; a miss with lives left costs one life and resets ball and paddle; bricks, health and keys are untouched |
| `Input.KeyDown` | script.js:208-211 | right is held exactly when the key is Right or ArrowRight, left exactly when it is Left or ArrowLeft, so at most one is held; nothing else changes |
| `Input.OtherKeyStopsPaddle` | script.js:208-211 | pressing a key that is neither arrow releases both directions, so the paddle stops |
| `Input.KeyUp` | script.js:213-216 | releasing any key clears both flags; nothing else changes |
| `Input.KeyUpStopsPaddle` | script.js:213-216 | after a release the paddle step leaves the paddle where it is |
| `Input.PointerMove` | script.js:218-223 | a pointer strictly inside the canvas width centres the paddle under it; otherwise the state is unchanged |
| `Input.PointerLeavesKeyboardRange` | script.js:218-223 | a pointer near the left edge puts the paddle outside the range the keyboard keeps it in |
| `Frame.DrawPhase` | script.js:120-127 | the grid after the pass is the freshly positioned grid with the bricks under the ball point cleared; dy is negated and health updated once per such brick; and either exactly one brick breaks with dy negated and one health update, or nothing but positions changes |
| `Frame.Step` | script.js:129-135 | a frame ends the game exactly when the moved ball misses with no lives left; otherwise the invariant holds, a life is lost exactly when the ball misses, the bricks are those cleared at the ball's position before it moves, health is what the collision pass leaves (one update per broken brick, so at most one), and at most one brick breaks; the ball moves with the velocity left by the collisions (by (dx, dy') when it does not miss, back to (W/2, paddle line) when it does), dx and dy are reflected as in the ball step, and the paddle then steps by +7, -7 or 0 from where the ball step left it, under the keyboard rule |
| `Frame.Apply` | script.js:244-246 | an animation frame runs one frame; a key press sets right or left held exactly for the matching arrow key, a key release clears both, a pointer strictly inside the canvas centres the paddle under it, and these events change nothing but the flags and the paddle; the state stays valid; lives drop by one exactly on a frame in which the ball misses; health and remaining bricks never increase; the game can end only on a frame, and only with no lives left |
| `Frame.Ready` | script.js:249-258 | the state before the first click is the start record (ball at (W/2, paddle line), dx = 2, paddle centred, no key held, 3 lives) after one drawing pass: its bricks are the layout's bricks placed at their grid positions with any brick under the ball broken, every active brick sits at its grid position, the state is valid and at most one hit has been taken |
| `Frame.Run` | script.js:244-247 | along any sequence of host events the invariant holds, and lives, health and remaining bricks never increase |
| `Frame.SurvivesLivesFrames` | script.js:91-95 | a game with n lives survives its first n frames, whatever happens in them |
| `Frame.LivesCountMisses` | script.js:91-95 | along any run, lives equal the starting lives minus the misses so far, and a run that ends in game over has had exactly starting lives + 1 misses |

## Left out

- Drawing: clearing the canvas, drawing paddle, ball, bricks, lives and health text. Only the position writes of the brick-drawing pass are kept.
- The page wiring: element lookups, event-listener registration, the start-on-click button setup and its "quit" button. `Frame.Run` stands for the host delivering events.
- The self-scheduling animation loop. `Frame.Step` is one frame, and `Frame.Run` feeds a finite sequence of events.
- The message box and page reload of the terminal paths. Game over is the `GameOver` outcome. The delayed "you died" message is the `dying` flag. The model does not stop a dying game: `Frame.Run` keeps accepting frames on it with no limit, where the source runs only until the 100 ms timer fires. This over-approximates the source, so the invariants proved along runs still cover it.
- The timer delay itself (100 ms) and the interval cancellation in the alert helper. The name cancelled there is never declared in `script.js`.
- The layout data file, which is not part of this model. The layout is a parameter; `CreateBricks` requires at least 35 rows, because the source reads that many rows.
- The canvas size and its left offset (measured by the host from the canvas's offset parent). They are the `Canvas` parameter.
- `Collision.CollisionDetection` requires the 35 x 42 shape. The source loops over exactly those indices; `Valid` keeps that shape in every reachable state.

## Notes

Behaviour of the code worth knowing:

- Keyboard bounds. The paddle is tested before it moves, so the keyboard can carry it up to 7 past either limit of [0, W - 95] (`Physics.KeyboardOvershootsRight`). The range actually kept is (-7, W - 88).
- Frame order. The ball moves before the paddle, after the brick pass.
- Paddle bounce. The bounce tests the ball's x after it has moved, with strict comparisons.
- Pointer bounds. The pointer test is strict at both ends of the canvas width.
- Lives. A miss with lives 0 ends the game, so a game starting with 3 lives ends on the fourth miss (`Frame.LivesCountMisses`).

=== FILE: bricks.dfy ===
/** The brick grid: building it from a layout, the positions the drawing pass
    writes into it, and which bricks a ball position touches. */
module Bricks {

  const Rows: nat := 35
  const Cols: nat := 42

  /** Bricks are square; side length in canvas units. */
  const BrickSize: int := 8
  const BrickWidth: real := BrickSize as real
  const BrickHeight: real := BrickSize as real
  const BrickPadding: int := 5
  const OffsetTop: int := 80
  const OffsetLeft: int := 30

  /** The layout marker of a cell that starts as a brick. */
  const Filled: string := "\U{25A0}"

  /** One cell of the grid. `active` is the source's status 1 (a brick that
      is drawn and can be hit); an inactive cell is status 0. */
  datatype Brick = Brick(x: real, y: real, active: bool)

  type Grid = seq<seq<Brick>>

  /** The grid has the fixed 35 x 42 shape. */
  predicate WellFormed(g: Grid)
  {
    |g| == Rows && forall i :: 0 <= i < |g| ==> |g[i]| == Cols
  }

  /** Whether the layout marks (row, col) as a brick. A row shorter than the
      grid reads as undefined past its end, which is not the marker. */
  predicate IsFilled(layout: seq<seq<string>>, row: nat, col: nat)
    requires row < |layout|
  {
    col < |layout[row]| && layout[row][col] == Filled
  }

  /** The grid a layout describes: every cell at (0, 0), active exactly
      where the layout holds the marker. */
  function CreateBricks(layout: seq<seq<string>>): (g: Grid)
    requires |layout| >= Rows
    ensures WellFormed(g)
    ensures forall i, j :: 0 <= i < Rows && 0 <= j < Cols ==>
              && g[i][j].x == 0.0
              && g[i][j].y == 0.0
              && (g[i][j].active <==> IsFilled(layout, i, j))
  {
    seq(Rows, i requires 0 <= i < Rows =>
      seq(Cols, j requires 0 <= j < Cols => Brick(0.0, 0.0, IsFilled(layout, i, j))))
  }

  /** Screen position of column `col` and of row `row`: cells are laid out
      on a pitch of brick size plus padding from the top-left offset. */
  function BrickX(col: int): real
  {
    (col * (BrickSize + BrickPadding) + OffsetLeft) as real
  }

  function BrickY(row: int): real
  {
    (row * (BrickSize + BrickPadding) + OffsetTop) as real
  }

  /** The cell (row, col) after the drawing pass: an active brick is moved
      to its grid position, an inactive one is left alone. */
  function Place(b: Brick, row: int, col: int): Brick
  {
    if b.active then Brick(BrickX(col), BrickY(row), true) else b
  }

  /** Every active cell of row `row`, starting at column `col0`, sits at its
      grid position. */
  predicate PlacedRow(r: seq<Brick>, row: int, col0: int)
  {
    forall j :: 0 <= j < |r| && r[j].active ==>
      r[j].x == BrickX(col0 + j) && r[j].y == BrickY(row)
  }

  /** Every active cell of a grid whose first row is row `row0` sits at its
      grid position. */
  predicate PlacedFrom(g: Grid, row0: int)
  {
    forall i :: 0 <= i < |g| ==> PlacedRow(g[i], row0 + i, 0)
  }

  predicate Positioned(g: Grid)
  {
    PlacedFrom(g, 0)
  }

  /** The position-writing part of the brick-drawing pass. */
  function PositionBricks(g: Grid): (r: Grid)
    ensures |r| == |g|
    ensures forall i :: 0 <= i < |g| ==> |r[i]| == |g[i]|
    ensures WellFormed(g) ==> WellFormed(r)
    ensures forall i, j :: 0 <= i < |g| && 0 <= j < |g[i]| ==>
              && r[i][j].active == g[i][j].active
              && (g[i][j].active ==> r[i][j].x == BrickX(j) && r[i][j].y == BrickY(i))
              && (!g[i][j].active ==> r[i][j] == g[i][j])
    ensures Positioned(r)
  {
    seq(|g|, i requires 0 <= i < |g| =>
      seq(|g[i]|, j requires 0 <= j < |g[i]| => Place(g[i][j], i, j)))
  }

  /** A grid whose active cells already sit at their grid positions is
      left unchanged by the drawing pass. */
  lemma PositionedIsFixed(g: Grid)
    requires Positioned(g)
    ensures PositionBricks(g) == g
  {
    var p := PositionBricks(g);
    forall i | 0 <= i < |g|
      ensures p[i] == g[i]
    {
      assert PlacedRow(g[i], i, 0);
      assert forall j :: 0 <= j < |g[i]| ==> p[i][j] == g[i][j];
    }
  }

  /** The collision test of one cell: the ball point lies strictly inside an
      active brick's 8 x 8 square. */
  predicate Hit(b: Brick, x: real, y: real)
  {
    b.active && b.x < x < b.x + BrickWidth && b.y < y < b.y + BrickHeight
  }

  function Clear(b: Brick, x: real, y: real): Brick
  {
    if Hit(b, x, y) then b.(active := false) else b
  }

  function ClearRow(r: seq<Brick>, x: real, y: real): seq<Brick>
  {
    seq(|r|, j requires 0 <= j < |r| => Clear(r[j], x, y))
  }

  /** The grid with every brick the ball point touches switched off. */
  function ClearHits(g: Grid, x: real, y: real): (r: Grid)
    ensures |r| == |g|
    ensures forall i :: 0 <= i < |g| ==> |r[i]| == |g[i]|
    ensures WellFormed(g) ==> WellFormed(r)
    ensures forall i, j :: 0 <= i < |g| && 0 <= j < |g[i]| ==>
              && r[i][j].x == g[i][j].x
              && r[i][j].y == g[i][j].y
              && (r[i][j].active <==> g[i][j].active && !Hit(g[i][j], x, y))
  {
    seq(|g|, i requires 0 <= i < |g| => ClearRow(g[i], x, y))
  }

  /** Number of cells of a row, and of a grid, the ball point touches. */
  function RowHits(r: seq<Brick>, x: real, y: real): nat
  {
    if |r| == 0 then 0
    else (if Hit(r[0], x, y) then 1 else 0) + RowHits(r[1..], x, y)
  }

  function GridHits(g: Grid, x: real, y: real): nat
  {
    if |g| == 0 then 0 else RowHits(g[0], x, y) + GridHits(g[1..], x, y)
  }

  /** Number of active cells of a row, and of a grid. */
  function RowActive(r: seq<Brick>): nat
  {
    if |r| == 0 then 0 else (if r[0].active then 1 else 0) + RowActive(r[1..])
  }

  function ActiveCount(g: Grid): nat
  {
    if |g| == 0 then 0 else RowActive(g[0]) + ActiveCount(g[1..])
  }

  /** A row has no hit exactly when its hit count is zero. */
  lemma {:induction false} RowHitsZero(r: seq<Brick>, x: real, y: real)
    ensures RowHits(r, x, y) == 0 <==> forall j :: 0 <= j < |r| ==> !Hit(r[j], x, y)
    decreases |r|
  {
    if |r| > 0 {
      RowHitsZero(r[1..], x, y);
      assert forall j :: 1 <= j < |r| ==> r[1..][j - 1] == r[j];
    }
  }

  lemma {:induction false} GridHitsZero(g: Grid, x: real, y: real)
    ensures GridHits(g, x, y) == 0 <==> forall i :: 0 <= i < |g| ==> RowHits(g[i], x, y) == 0
    decreases |g|
  {
    if |g| > 0 {
      GridHitsZero(g[1..], x, y);
      assert forall i :: 1 <= i < |g| ==> g[1..][i - 1] == g[i];
    }
  }

  /** Bricks of one row are 8 wide on a 13 pitch, so a positioned row can
      hold at most one brick the ball point touches. */
  lemma {:induction false} RowAtMostOneHit(r: seq<Brick>, row: int, col0: int, x: real, y: real)
    requires PlacedRow(r, row, col0)
    ensures RowHits(r, x, y) <= 1
    decreases |r|
  {
    if |r| > 0 {
      var rest := r[1..];
      assert forall j :: 0 <= j < |rest| ==> rest[j] == r[j + 1];
      assert PlacedRow(rest, row, col0 + 1);
      RowAtMostOneHit(rest, row, col0 + 1, x, y);
      if Hit(r[0], x, y) {
        forall j | 0 <= j < |rest|
          ensures !Hit(rest[j], x, y)
        {
          if rest[j].active {
            assert rest[j].x == BrickX(col0 + 1 + j);
          }
        }
        RowHitsZero(rest, x, y);
      }
    }
  }

  /** Rows are 8 high on a 13 pitch, so a positioned grid holds at most one
      brick the ball point touches. */
  lemma {:induction false} GridAtMostOneHit(g: Grid, row0: int, x: real, y: real)
    requires PlacedFrom(g, row0)
    ensures GridHits(g, x, y) <= 1
    decreases |g|
  {
    if |g| > 0 {
      var rest := g[1..];
      assert forall i :: 0 <= i < |rest| ==> rest[i] == g[i + 1];
      assert PlacedFrom(rest, row0 + 1);
      GridAtMostOneHit(rest, row0 + 1, x, y);
      RowAtMostOneHit(g[0], row0, 0, x, y);
      if RowHits(g[0], x, y) > 0 {
        RowHitsZero(g[0], x, y);
        var j :| 0 <= j < |g[0]| && Hit(g[0][j], x, y);
        assert y < BrickY(row0) + BrickHeight;
        forall i | 0 <= i < |rest|
          ensures RowHits(rest[i], x, y) == 0
        {
          forall k | 0 <= k < |rest[i]|
            ensures !Hit(rest[i][k], x, y)
          {
            if rest[i][k].active {
              assert PlacedRow(g[i + 1], row0 + i + 1, 0);
              assert rest[i][k].y == BrickY(row0 + 1 + i);
            }
          }
          RowHitsZero(rest[i], x, y);
        }
        GridHitsZero(rest, x, y);
      }
    }
  }

  /** Clearing a row switches off exactly its hit cells. */
  lemma {:induction false} ClearRowCount(r: seq<Brick>, x: real, y: real)
    ensures RowActive(ClearRow(r, x, y)) + RowHits(r, x, y) == RowActive(r)
    decreases |r|
  {
    if |r| > 0 {
      ClearRowCount(r[1..], x, y);
      assert ClearRow(r, x, y)[1..] == ClearRow(r[1..], x, y);
    }
  }

  /** Clearing a grid removes exactly as many active bricks as it has hits. */
  lemma {:induction false} ClearHitsCount(g: Grid, x: real, y: real)
    ensures ActiveCount(ClearHits(g, x, y)) + GridHits(g, x, y) == ActiveCount(g)
    decreases |g|
  {
    if |g| > 0 {
      ClearRowCount(g[0], x, y);
      ClearHitsCount(g[1..], x, y);
      assert ClearHits(g, x, y)[1..] == ClearHits(g[1..], x, y);
    }
  }

  /** The active-brick count depends on the activity flags alone. */
  lemma {:induction false} RowActiveSame(a: seq<Brick>, b: seq<Brick>)
    requires |a| == |b|
    requires forall j :: 0 <= j < |a| ==> a[j].active == b[j].active
    ensures RowActive(a) == RowActive(b)
    decreases |a|
  {
    if |a| > 0 {
      RowActiveSame(a[1..], b[1..]);
    }
  }

  lemma {:induction false} ActiveCountSame(g: Grid, h: Grid)
    requires |g| == |h|
    requires forall i :: 0 <= i < |g| ==> |g[i]| == |h[i]|
    requires forall i, j :: 0 <= i < |g| && 0 <= j < |g[i]| ==> g[i][j].active == h[i][j].active
    ensures ActiveCount(g) == ActiveCount(h)
    decreases |g|
  {
    if |g| > 0 {
      RowActiveSame(g[0], h[0]);
      ActiveCountSame(g[1..], h[1..]);
    }
  }

  /** A collision pass only switches bricks off, so a positioned grid stays
      positioned. */
  lemma ClearHitsKeepsPositioned(g: Grid, x: real, y: real)
    requires Positioned(g)
    ensures Positioned(ClearHits(g, x, y))
  {
    var r := ClearHits(g, x, y);
    forall i | 0 <= i < |r|
      ensures PlacedRow(r[i], i, 0)
    {
      assert PlacedRow(g[i], i, 0);
    }
  }

  /** The next frame's drawing pass, run after this frame's positions and
      collisions, writes no new positions. */
  lemma RepositionAfterCollision(g: Grid, x: real, y: real)
    ensures PositionBricks(ClearHits(PositionBricks(g), x, y)) == ClearHits(PositionBricks(g), x, y)
  {
    ClearHitsKeepsPositioned(PositionBricks(g), x, y);
    PositionedIsFixed(ClearHits(PositionBricks(g), x, y));
  }
}

=== FILE: collision.dfy ===
/** The collision scan: every cell in row-major order is tested against the
    ball point; each hit reflects the ball vertically, switches the brick off
    and costs health. */
module Collision {
  import opened Health
  import opened Bricks
  import opened Game

  /** The vertical velocity after being negated n times. */
  function Flip(dy: real, n: nat): real
  {
    if n % 2 == 0 then dy else -dy
  }

  /** The scan over one row, left to right, threading the vertical velocity
      and health through the hits in the order they happen. */
  function ScanRow(r: seq<Brick>, x: real, y: real, dy: real, v: Vitals): (seq<Brick>, real, Vitals)
    decreases |r|
  {
    if |r| == 0 then
      ([], dy, v)
    else if Hit(r[0], x, y) then
      var rest := ScanRow(r[1..], x, y, -dy, UpdateHealth(v));
      ([r[0].(active := false)] + rest.0, rest.1, rest.2)
    else
      var rest := ScanRow(r[1..], x, y, dy, v);
      ([r[0]] + rest.0, rest.1, rest.2)
  }

  /** The scan over the grid, top row first. */
  function ScanGrid(g: Grid, x: real, y: real, dy: real, v: Vitals): (Grid, real, Vitals)
    decreases |g|
  {
    if |g| == 0 then
      ([], dy, v)
    else
      var first := ScanRow(g[0], x, y, dy, v);
      var rest := ScanGrid(g[1..], x, y, first.1, first.2);
      ([first.0] + rest.0, rest.1, rest.2)
  }

  /** Scanning a row in order has the same effect as clearing its hit cells,
      negating the velocity once per hit and applying one health update per
      hit. */
  lemma {:induction false} ScanRowEffect(r: seq<Brick>, x: real, y: real, dy: real, v: Vitals)
    ensures ScanRow(r, x, y, dy, v)
         == (ClearRow(r, x, y), Flip(dy, RowHits(r, x, y)), HealthAfter(v, RowHits(r, x, y)))
    decreases |r|
  {
    if |r| > 0 {
      assert ClearRow(r, x, y) == [Clear(r[0], x, y)] + ClearRow(r[1..], x, y);
      var n := RowHits(r[1..], x, y);
      if Hit(r[0], x, y) {
        ScanRowEffect(r[1..], x, y, -dy, UpdateHealth(v));
        assert RowHits(r, x, y) == n + 1;
        assert Flip(-dy, n) == Flip(dy, n + 1);
        assert HealthAfter(UpdateHealth(v), n) == HealthAfter(v, n + 1);
      } else {
        ScanRowEffect(r[1..], x, y, dy, v);
      }
    } else {
      assert ClearRow(r, x, y) == [];
    }
  }

  lemma {:induction false} ScanGridEffect(g: Grid, x: real, y: real, dy: real, v: Vitals)
    ensures ScanGrid(g, x, y, dy, v)
         == (ClearHits(g, x, y), Flip(dy, GridHits(g, x, y)), HealthAfter(v, GridHits(g, x, y)))
    decreases |g|
  {
    if |g| > 0 {
      var h0 := RowHits(g[0], x, y);
      ScanRowEffect(g[0], x, y, dy, v);
      ScanGridEffect(g[1..], x, y, Flip(dy, h0), HealthAfter(v, h0));
      HealthAfterAdd(v, h0, GridHits(g[1..], x, y));
      assert ClearHits(g, x, y) == [ClearRow(g[0], x, y)] + ClearHits(g[1..], x, y);
    }
  }

  /** One collision pass over the state. Only cells the ball point touches
      change, and only from active to inactive; the velocity is negated once
      per hit and health updated once per hit; nothing else changes. */
  function CollisionDetection(s: State): (r: State)
    requires WellFormed(s.bricks)
    ensures WellFormed(r.bricks)
    ensures forall i, j :: 0 <= i < Rows && 0 <= j < Cols ==>
              && r.bricks[i][j].x == s.bricks[i][j].x
              && r.bricks[i][j].y == s.bricks[i][j].y
              && (r.bricks[i][j].active <==> s.bricks[i][j].active && !Hit(s.bricks[i][j], s.x, s.y))
    ensures r.bricks == ClearHits(s.bricks, s.x, s.y)
    ensures r.dy == Flip(s.dy, GridHits(s.bricks, s.x, s.y))
    ensures r.vitals == HealthAfter(s.vitals, GridHits(s.bricks, s.x, s.y))
    ensures r == s.(bricks := r.bricks, dy := r.dy, vitals := r.vitals)
  {
    ScanGridEffect(s.bricks, s.x, s.y, s.dy, s.vitals);
    var scan := ScanGrid(s.bricks, s.x, s.y, s.dy, s.vitals);
    s.(bricks := scan.0, dy := scan.1, vitals := scan.2)
  }
}

=== FILE: config.dfy ===
/** Fixed dimensions of the game and the drawing surface it runs on.

    The canvas is supplied by the host page; its width, height and left
    offset are parameters of the model rather than constants. */
module Config {

  /** Ball "radius" used by the wall and ceiling tests (the ball is drawn as a
      10 x 10 square whose top-left corner is the ball position). */
  const BallRadius: real := 10.0

  const PaddleHeight: real := 10.0
  const PaddleWidth: real := 95.0

  /** Gap left between the paddle and the bottom of the canvas. */
  const PaddleGap: real := 50.0

  /** Distance the paddle moves per frame under keyboard control. */
  const PaddleStep: real := 7.0

  const StartLives: int := 3
  const StartDx: real := 2.0
  const StartDy: real := -2.0

  /** The host's drawing surface: its size and its left offset, which the
      host measures from the canvas's offset parent. Pointer events report
      viewport (client) coordinates, and the pointer handler subtracts this
      offset from them. */
  datatype Canvas = Canvas(width: nat, height: nat, offsetLeft: real)

  function Width(c: Canvas): real
  {
    c.width as real
  }

  /** The horizontal line the paddle sits on. */
  function PaddleY(c: Canvas): real
  {
    c.height as real - PaddleHeight - PaddleGap
  }

  /** Where the paddle starts, and where a lost ball puts it back: centred. */
  function CentredPaddleX(c: Canvas): real
  {
    (Width(c) - PaddleWidth) / 2.0
  }
}

=== FILE: frame.dfy ===
/** One animation frame, and a driver that feeds a game a sequence of host
    events. A frame runs the brick pass (positions, then collisions), then
    the ball step, then the paddle step. */
module Frame {
  import opened Config
  import opened Health
  import opened Bricks
  import opened Game
  import opened Collision
  import opened Physics
  import Input

  /** The simulation part of the drawing pass: brick positions are written,
      then the collision scan reads them. Since bricks are 8 wide and high on
      a 13 pitch, the ball point can touch at most one brick, so the pass
      either breaks exactly one brick, reflecting the ball once and costing
      one health update, or changes nothing but brick positions. */
  function DrawPhase(s: State): (r: State)
    requires WellFormed(s.bricks)
    ensures WellFormed(r.bricks)
    // collisions are tested against the positions written in the same pass
    ensures r.bricks == ClearHits(PositionBricks(s.bricks), s.x, s.y)
    ensures r.dy == Flip(s.dy, GridHits(PositionBricks(s.bricks), s.x, s.y))
    ensures r.vitals == HealthAfter(s.vitals, GridHits(PositionBricks(s.bricks), s.x, s.y))
    ensures forall i, j :: 0 <= i < Rows && 0 <= j < Cols ==>
              (r.bricks[i][j].active ==> s.bricks[i][j].active)
    ensures || (&& ActiveCount(r.bricks) == ActiveCount(s.bricks) - 1
                && r.dy == -s.dy
                && r.vitals == UpdateHealth(s.vitals))
            || (&& ActiveCount(r.bricks) == ActiveCount(s.bricks)
                && r.dy == s.dy
                && r.vitals == s.vitals)
    ensures r == s.(bricks := r.bricks, dy := r.dy, vitals := r.vitals)
  {
    var placed := s.(bricks := PositionBricks(s.bricks));
    GridAtMostOneHit(placed.bricks, 0, s.x, s.y);
    ActiveCountSame(s.bricks, placed.bricks);
    ClearHitsCount(placed.bricks, s.x, s.y);
    assert HealthAfter(s.vitals, 0) == s.vitals;
    assert HealthAfter(s.vitals, 1) == UpdateHealth(s.vitals);
    CollisionDetection(placed)
  }

  /** One frame. The game ends in a frame only when the moved ball misses
      the paddle with no lives left. Otherwise the state stays valid, a life
      is lost exactly when the ball misses, bricks are cleared at the ball's
      position before it moves, health takes at most one hit, and at most one
      brick switches off. The ball then moves with the velocity the
      collisions left, and the paddle steps after it. */
  function Step(c: Canvas, s: State): (o: Outcome)
    requires WellFormed(s.bricks)
    ensures o.GameOver? <==> Misses(c, DrawPhase(s)) && s.lives == 0
    ensures o.Running? && Valid(s) ==> Valid(o.state)
    ensures o.Running? ==>
              o.state.lives == s.lives - (if Misses(c, DrawPhase(s)) then 1 else 0)
    ensures o.Running? ==> o.state.bricks == ClearHits(PositionBricks(s.bricks), s.x, s.y)
    // the ball moves with the velocity the collisions left
    ensures o.Running? && !Misses(c, DrawPhase(s)) ==>
              o.state.x == s.x + s.dx && o.state.y == s.y + DrawPhase(s).dy
    ensures o.Running? && Misses(c, DrawPhase(s)) ==>
              o.state.x == Width(c) / 2.0 && o.state.y == PaddleY(c)
    ensures o.Running? ==>
              && o.state.dx == (if HitsSideWall(c, s.x + s.dx, s.dx) then -s.dx else s.dx)
              && o.state.dy == (if Bounces(c, DrawPhase(s)) then -DrawPhase(s).dy else DrawPhase(s).dy)
    // the paddle steps after the ball, from where the ball step left it
    ensures o.Running? ==>
              var p := if Misses(c, DrawPhase(s)) then CentredPaddleX(c) else s.paddleX;
              && o.state.paddleX - p in {PaddleStep, -PaddleStep, 0.0}
              && ((o.state.paddleX == p + PaddleStep)
                  <==> (s.rightPressed && p < Width(c) - PaddleWidth))
              && ((o.state.paddleX == p - PaddleStep)
                  <==> (!(s.rightPressed && p < Width(c) - PaddleWidth)
                        && s.leftPressed && p > 0.0))
    ensures o.Running? ==>
              && o.state.rightPressed == s.rightPressed
              && o.state.leftPressed == s.leftPressed
    ensures o.Running? ==>
              && WellFormed(o.state.bricks)
              && (o.state.vitals == s.vitals || o.state.vitals == UpdateHealth(s.vitals))
              && ActiveCount(s.bricks) - 1 <= ActiveCount(o.state.bricks) <= ActiveCount(s.bricks)
    // health is what the collision pass leaves; the ball and paddle steps keep it
    ensures o.Running? ==> o.state.vitals == DrawPhase(s).vitals
  {
    match MoveBall(c, DrawPhase(s))
    case GameOver => GameOver
    case Running(t) => Running(MovePaddle(c, t))
  }

  /** The page's preparation before the first click: a fresh state from the
      layout, then one drawing pass. */
  function Ready(c: Canvas, layout: seq<seq<string>>): (s: State)
    requires |layout| >= Rows
    ensures Valid(s)
    ensures s.lives == StartLives
    ensures s.vitals.health >= FullHealth - HitCost
    // the start record, with the layout's bricks placed and any brick under
    // the ball broken
    ensures && s.x == Width(c) / 2.0 && s.y == PaddleY(c)
            && s.dx == StartDx && s.paddleX == CentredPaddleX(c)
            && !s.rightPressed && !s.leftPressed
    ensures Positioned(s.bricks)
    ensures s.bricks == ClearHits(PositionBricks(CreateBricks(layout)), Width(c) / 2.0, PaddleY(c))
  {
    ClearHitsKeepsPositioned(PositionBricks(CreateBricks(layout)), Width(c) / 2.0, PaddleY(c));
    DrawPhase(InitialState(c, layout))
  }

  /** What the host delivers: an animation frame, a key press or release, or
      a pointer move reported in viewport (client) coordinates. */
  datatype Event =
    | Tick
    | KeyPressed(key: string)
    | KeyReleased(key: string)
    | PointerMoved(clientX: real)

  /** The effect of one event on a game in progress. */
  function Apply(c: Canvas, s: State, e: Event): (o: Outcome)
    requires Valid(s)
    ensures o.Running? ==> Valid(o.state)
    ensures o.Running? ==>
              o.state.lives == s.lives - (if e.Tick? && Misses(c, DrawPhase(s)) then 1 else 0)
    ensures o.Running? ==> o.state.vitals.health <= s.vitals.health
    ensures o.Running? ==> ActiveCount(o.state.bricks) <= ActiveCount(s.bricks)
    ensures o.GameOver? ==> e.Tick? && s.lives == 0
    // the handlers touch only the flags or the paddle
    ensures e.KeyPressed? ==>
              && o.Running?
              && (o.state.rightPressed <==> Input.IsRightKey(e.key))
              && (o.state.leftPressed <==> Input.IsLeftKey(e.key))
    ensures e.KeyReleased? ==> o.Running? && !o.state.rightPressed && !o.state.leftPressed
    ensures e.PointerMoved? && 0.0 < Input.RelativeX(c, e.clientX) < Width(c) ==>
              o.Running? && o.state.paddleX + PaddleWidth / 2.0 == Input.RelativeX(c, e.clientX)
    ensures !e.Tick? ==>
              && o.Running?
              && o.state == s.(rightPressed := o.state.rightPressed,
                              leftPressed := o.state.leftPressed,
                              paddleX := o.state.paddleX)
  {
    match e
    case Tick => Step(c, s)
    case KeyPressed(key) => Running(Input.KeyDown(s, key))
    case KeyReleased(key) => Running(Input.KeyUp(s, key))
    case PointerMoved(x) => Running(Input.PointerMove(c, s, x))
  }

  /** A game fed a sequence of events, stopping at game over. Along any run
      the state stays valid, and lives, health and the number of remaining
      bricks never go up. */
  function Run(c: Canvas, s: State, events: seq<Event>): (o: Outcome)
    requires Valid(s)
    ensures o.Running? ==> Valid(o.state)
    ensures o.Running? ==> o.state.lives <= s.lives
    ensures o.Running? ==> o.state.vitals.health <= s.vitals.health
    ensures o.Running? ==> ActiveCount(o.state.bricks) <= ActiveCount(s.bricks)
    decreases |events|
  {
    if |events| == 0 then
      Running(s)
    else
      match Apply(c, s, events[0])
      case GameOver => GameOver
      case Running(t) => Run(c, t, events[1..])
  }

  /** Frames alone never lose more than one life per frame, so a game that
      starts with n lives survives the first n frames. */
  lemma {:induction false} SurvivesLivesFrames(c: Canvas, s: State, n: nat)
    requires Valid(s)
    requires n <= s.lives
    ensures Run(c, s, seq(n, _ => Tick)).Running?
    ensures Run(c, s, seq(n, _ => Tick)).state.lives >= s.lives - n
    decreases n
  {
    if n > 0 {
      var ticks := seq(n, _ => Tick);
      assert ticks[0] == Tick;
      assert ticks[1..] == seq(n - 1, _ => Tick);
      var o := Apply(c, s, Tick);
      assert o.Running?;
      SurvivesLivesFrames(c, o.state, n - 1);
    }
  }

  /** Number of frames along a run in which the ball misses the paddle,
      counting the miss that ends the game. */
  function MissesAlong(c: Canvas, s: State, events: seq<Event>): nat
    requires Valid(s)
    decreases |events|
  {
    if |events| == 0 then
      0
    else
      var miss := if events[0].Tick? && Misses(c, DrawPhase(s)) then 1 else 0;
      match Apply(c, s, events[0])
      case GameOver => miss
      case Running(t) => miss + MissesAlong(c, t, events[1..])
  }

  /** Every miss costs one life, and the game ends on the miss that finds no
      life left: a game started with n lives ends on its (n+1)-th miss. */
  lemma {:induction false} LivesCountMisses(c: Canvas, s: State, events: seq<Event>)
    requires Valid(s)
    ensures Run(c, s, events).Running? ==>
              Run(c, s, events).state.lives == s.lives - MissesAlong(c, s, events)
    ensures Run(c, s, events).GameOver? ==> MissesAlong(c, s, events) == s.lives + 1
    decreases |events|
  {
    if |events| > 0 {
      match Apply(c, s, events[0])
      case GameOver =>
      case Running(t) =>
        LivesCountMisses(c, t, events[1..]);
    }
  }
}

=== FILE: game.dfy ===
/** The single game-state record every handler and frame phase updates. */
module Game {
  import opened Config
  import opened Health
  import opened Bricks

  /** Ball position (the top-left corner of the drawn ball) and velocity,
      paddle position, the two keyboard flags, the brick grid, lives and
      health. */
  datatype State = State(
    x: real,
    y: real,
    dx: real,
    dy: real,
    paddleX: real,
    rightPressed: bool,
    leftPressed: bool,
    bricks: Grid,
    lives: int,
    vitals: Vitals)

  /** A frame either leaves a game in progress or ends it with the game-over
      message, after which the host page reloads. */
  datatype Outcome = Running(state: State) | GameOver

  /** What every reachable state satisfies: the grid keeps its shape, lives
      never go negative, and health keeps its even, bounded form. */
  predicate Valid(s: State)
  {
    && WellFormed(s.bricks)
    && 0 <= s.lives
    && Consistent(s.vitals)
  }

  /** The state a fresh page starts from, with the grid built from the
      layout: ball on the paddle line at mid-width moving up and right,
      paddle centred, no key held, three lives and full health. */
  function InitialState(c: Canvas, layout: seq<seq<string>>): (s: State)
    requires |layout| >= Rows
    ensures Valid(s)
    ensures s.x == Width(c) / 2.0 && s.y == PaddleY(c)
    ensures s.dx == 2.0 && s.dy == -2.0
    ensures s.paddleX + PaddleWidth / 2.0 == s.x
    ensures !s.rightPressed && !s.leftPressed
    ensures s.lives == 3 && s.vitals == Vitals(100, false)
    ensures forall i, j :: 0 <= i < Rows && 0 <= j < Cols ==>
              (s.bricks[i][j].active <==> IsFilled(layout, i, j))
  {
    State(
      Width(c) / 2.0,
      PaddleY(c),
      StartDx,
      StartDy,
      CentredPaddleX(c),
      false,
      false,
      CreateBricks(layout),
      StartLives,
      StartVitals)
  }
}

=== FILE: health.dfy ===
/** Health bookkeeping: the counter that brick hits wear down, and the
    "player died" path that fires when it reaches zero. */
module Health {

  /** Health at the start of a game. */
  const FullHealth: int := 100

  /** Health one brick hit costs. */
  const HitCost: int := 2

  /** Health together with the flag raised once the delayed "you died"
      message has been scheduled. That message ends the session with a page
      reload, so the flag is never lowered again. */
  datatype Vitals = Vitals(health: int, dying: bool)

  const StartVitals: Vitals := Vitals(FullHealth, false)

  /** What health keeps from its start at 100: an even number in [0, 100],
      and zero exactly when the death path has fired. */
  predicate Consistent(v: Vitals)
  {
    && 0 <= v.health <= FullHealth
    && v.health % 2 == 0
    && (v.dying <==> v.health == 0)
  }

  /** The effect of one brick hit on health. */
  function UpdateHealth(v: Vitals): (r: Vitals)
    // health at least 2 drops by exactly 2; below 2 nothing happens
    ensures v.health >= HitCost ==> r.health == v.health - HitCost
    ensures v.health < HitCost ==> r == v
    // the death path fires exactly on the 2 -> 0 transition
    ensures r.dying <==> v.dying || v.health == HitCost
    ensures Consistent(v) ==> Consistent(r)
  {
    if v.health == HitCost then
      Vitals(0, true)
    else if v.health < HitCost then
      v
    else
      v.(health := v.health - HitCost)
  }

  /** Health after n consecutive hits. */
  function HealthAfter(v: Vitals, n: nat): Vitals
    decreases n
  {
    if n == 0 then v else HealthAfter(UpdateHealth(v), n - 1)
  }

  function Max(a: int, b: int): int
  {
    if a < b then b else a
  }

  /** Hits compose: a hits followed by b hits are a + b hits. */
  lemma {:induction false} HealthAfterAdd(v: Vitals, a: nat, b: nat)
    ensures HealthAfter(HealthAfter(v, a), b) == HealthAfter(v, a + b)
    decreases a
  {
    if a > 0 {
      HealthAfterAdd(UpdateHealth(v), a - 1, b);
    }
  }

  /** From any consistent health, n hits leave max(0, health - 2n), the
      death path has fired exactly when those hits used health up, and the
      invariant still holds. */
  lemma {:induction false} HealthAfterClosedForm(v: Vitals, n: nat)
    requires Consistent(v)
    ensures HealthAfter(v, n).health == Max(0, v.health - HitCost * n)
    ensures HealthAfter(v, n).dying <==> v.health <= HitCost * n
    ensures Consistent(HealthAfter(v, n))
    decreases n
  {
    if n > 0 {
      HealthAfterClosedForm(UpdateHealth(v), n - 1);
    }
  }
}

=== FILE: input.dfy ===
/** Keyboard and pointer handlers. Each updates the state at once, between
    frames. */
module Input {
  import opened Config
  import opened Game
  import Physics

  predicate IsRightKey(key: string)
  {
    key == "Right" || key == "ArrowRight"
  }

  predicate IsLeftKey(key: string)
  {
    key == "Left" || key == "ArrowLeft"
  }

  /** A key press sets each flag to whether the key is that direction, so a
      press of any other key clears both. */
  function KeyDown(s: State, key: string): (r: State)
    ensures r.rightPressed <==> IsRightKey(key)
    ensures r.leftPressed <==> IsLeftKey(key)
    ensures !(r.rightPressed && r.leftPressed)
    ensures r == s.(rightPressed := r.rightPressed, leftPressed := r.leftPressed)
  {
    s.(rightPressed := IsRightKey(key), leftPressed := IsLeftKey(key))
  }

  /** A key release clears both flags, whichever key was released. */
  function KeyUp(s: State, key: string): (r: State)
    ensures !r.rightPressed && !r.leftPressed
    ensures r == s.(rightPressed := false, leftPressed := false)
  {
    s.(rightPressed := false, leftPressed := false)
  }

  /** The pointer position relative to the canvas's left edge. */
  function RelativeX(c: Canvas, clientX: real): real
  {
    clientX - c.offsetLeft
  }

  /** A pointer move strictly inside the canvas's width centres the paddle
      under the pointer; anywhere else it is ignored. */
  function PointerMove(c: Canvas, s: State, clientX: real): (r: State)
    ensures 0.0 < RelativeX(c, clientX) < Width(c) ==>
              r.paddleX + PaddleWidth / 2.0 == RelativeX(c, clientX)
    ensures !(0.0 < RelativeX(c, clientX) < Width(c)) ==> r == s
    ensures r == s.(paddleX := r.paddleX)
  {
    var relX := RelativeX(c, clientX);
    if 0.0 < relX < Width(c) then s.(paddleX := relX - PaddleWidth / 2.0) else s
  }

  /** Once a key is released the paddle step leaves the paddle where it is. */
  lemma KeyUpStopsPaddle(c: Canvas, s: State, key: string)
    ensures Physics.MovePaddle(c, KeyUp(s, key)) == KeyUp(s, key)
  {
  }

  /** A press of a key that is neither arrow stops the paddle as well. */
  lemma OtherKeyStopsPaddle(c: Canvas, s: State, key: string)
    requires !IsRightKey(key) && !IsLeftKey(key)
    ensures Physics.MovePaddle(c, KeyDown(s, key)) == KeyDown(s, key)
  {
  }

  /** Unlike the keyboard, the pointer can put the paddle well past the left
      wall: a pointer near the left edge leaves the paddle outside the range
      the keyboard keeps it in. */
  lemma PointerLeavesKeyboardRange(c: Canvas, s: State, clientX: real)
    requires 0.0 < RelativeX(c, clientX) < PaddleWidth / 2.0 - PaddleStep
    requires RelativeX(c, clientX) < Width(c)
    ensures !Physics.KeyboardRange(c, PointerMove(c, s, clientX).paddleX)
  {
  }
}

=== FILE: physics.dfy ===
/** The ball and paddle steps of a frame, and the reset after a lost ball. */
module Physics {
  import opened Config
  import opened Game
  import Bricks

  /** The paddle step: right wins when both keys are held, and each
      direction only moves while the paddle's left edge is short of that
      side's limit. The test is made before the move, so the paddle can end
      up to one step past either limit. */
  function MovePaddle(c: Canvas, s: State): (r: State)
    ensures r.paddleX - s.paddleX in {PaddleStep, -PaddleStep, 0.0}
    ensures (r.paddleX == s.paddleX + PaddleStep)
        <==> (s.rightPressed && s.paddleX < Width(c) - PaddleWidth)
    ensures (r.paddleX == s.paddleX - PaddleStep)
        <==> (!(s.rightPressed && s.paddleX < Width(c) - PaddleWidth)
              && s.leftPressed && s.paddleX > 0.0)
    ensures r == s.(paddleX := r.paddleX)
  {
    if s.rightPressed && s.paddleX < Width(c) - PaddleWidth then
      s.(paddleX := s.paddleX + PaddleStep)
    else if s.leftPressed && s.paddleX > 0.0 then
      s.(paddleX := s.paddleX - PaddleStep)
    else
      s
  }

  /** The range the keyboard keeps the paddle's left edge in: up to one
      step beyond either side of [0, W - paddle width]. */
  predicate KeyboardRange(c: Canvas, px: real)
  {
    -PaddleStep < px < Width(c) - PaddleWidth + PaddleStep
  }

  lemma MovePaddleKeepsRange(c: Canvas, s: State)
    requires KeyboardRange(c, s.paddleX)
    ensures KeyboardRange(c, MovePaddle(c, s).paddleX)
  {
  }

  /** The centred start position lies in the keyboard range once the canvas
      is wider than 81. */
  lemma CentredPaddleInRange(c: Canvas)
    requires c.width > 81
    ensures KeyboardRange(c, CentredPaddleX(c))
  {
  }

  /** The paddle is not confined to [0, W - paddle width]: one step right
      from just inside the right limit carries it past the limit. */
  lemma KeyboardOvershootsRight(c: Canvas, s: State)
    requires s.rightPressed
    requires Width(c) - PaddleWidth - PaddleStep < s.paddleX < Width(c) - PaddleWidth
    ensures MovePaddle(c, s).paddleX > Width(c) - PaddleWidth
  {
  }

  /** The reset after a lost ball while lives remain: one life fewer, ball
      back on the paddle line at mid-width, paddle centred. Velocity, keys,
      bricks and health are kept. */
  function GameRestart(c: Canvas, s: State): (r: State)
    ensures r.lives == s.lives - 1
    ensures r.x == Width(c) / 2.0 && r.y == PaddleY(c)
    ensures r.paddleX + PaddleWidth / 2.0 == r.x
    ensures r == s.(lives := r.lives, x := r.x, y := r.y, paddleX := r.paddleX)
  {
    s.(lives := s.lives - 1, x := Width(c) / 2.0, y := PaddleY(c), paddleX := CentredPaddleX(c))
  }

  /** The ball after moving by its velocity. */
  function Advance(s: State): State
  {
    s.(x := s.x + s.dx, y := s.y + s.dy)
  }

  /** The side-wall test, on the position one more step ahead. */
  predicate HitsSideWall(c: Canvas, x: real, dx: real)
  {
    x + dx > Width(c) - BallRadius || x + dx < BallRadius
  }

  predicate HitsCeiling(y: real, dy: real)
  {
    y + dy < BallRadius
  }

  predicate BelowPaddleLine(c: Canvas, y: real, dy: real)
  {
    y + dy > PaddleY(c)
  }

  /** The ball lies strictly within the paddle's horizontal span. */
  predicate OverPaddle(x: real, paddleX: real)
  {
    paddleX < x < paddleX + PaddleWidth
  }

  /** After moving, the ball is about to cross the paddle line and the
      paddle is not under it. */
  predicate Misses(c: Canvas, s: State)
  {
    var m := Advance(s);
    && !HitsCeiling(m.y, m.dy)
    && BelowPaddleLine(c, m.y, m.dy)
    && !OverPaddle(m.x, m.paddleX)
  }

  /** The vertical velocity is reflected, by the ceiling or by the paddle. */
  predicate Bounces(c: Canvas, s: State)
  {
    var m := Advance(s);
    HitsCeiling(m.y, m.dy) || (BelowPaddleLine(c, m.y, m.dy) && OverPaddle(m.x, m.paddleX))
  }

  /** The ball step. The ball moves by its velocity; its horizontal velocity
      is reflected when the next step would pass a side wall; its vertical
      velocity is reflected by the ceiling or by the paddle. A miss ends the
      game when no lives are left and otherwise costs a life and resets ball
      and paddle. */
  function MoveBall(c: Canvas, s: State): (o: Outcome)
    ensures o.GameOver? <==> Misses(c, s) && s.lives == 0
    ensures Misses(c, s) && s.lives != 0 ==>
              && o.Running?
              && o.state.lives == s.lives - 1
              && o.state.x == Width(c) / 2.0 && o.state.y == PaddleY(c)
              && o.state.paddleX == CentredPaddleX(c)
    ensures !Misses(c, s) ==>
              && o.Running?
              && o.state.x == s.x + s.dx && o.state.y == s.y + s.dy
              && o.state.lives == s.lives && o.state.paddleX == s.paddleX
    ensures o.Running? ==>
              && o.state.dx == (if HitsSideWall(c, s.x + s.dx, s.dx) then -s.dx else s.dx)
              && o.state.dy == (if Bounces(c, s) then -s.dy else s.dy)
              && o.state.bricks == s.bricks
              && o.state.vitals == s.vitals
              && o.state.rightPressed == s.rightPressed
              && o.state.leftPressed == s.leftPressed
  {
    var moved := Advance(s);
    var m := if HitsSideWall(c, moved.x, moved.dx) then moved.(dx := -moved.dx) else moved;
    if HitsCeiling(m.y, m.dy) then
      Running(m.(dy := -m.dy))
    else if BelowPaddleLine(c, m.y, m.dy) then
      if OverPaddle(m.x, m.paddleX) && BelowPaddleLine(c, m.y, m.dy) then
        Running(m.(dy := -m.dy))
      else if m.lives == 0 then
        GameOver
      else
        Running(GameRestart(c, m))
    else
      Running(m)
  }

  /** The reset puts ball and paddle exactly where a new game starts them. */
  lemma RestartMatchesStart(c: Canvas, s: State, layout: seq<seq<string>>)
    requires |layout| >= Bricks.Rows
    ensures GameRestart(c, s).x == InitialState(c, layout).x
    ensures GameRestart(c, s).y == InitialState(c, layout).y
    ensures GameRestart(c, s).paddleX == InitialState(c, layout).paddleX
  {
  }
}
